=== FILE: README.md ===
# Research-loop control of the LangGraph research agent

This project models, in Dafny, the control logic of the research agent's graph
(`backend/src/agent/graph.py`). The agent turns a question into search queries.
It fans them out to parallel `web_research` tasks and reflects on the results.
Then it either fans out follow-up queries or builds an HTML report. The model
covers the decisions the graph's nodes make. It does not cover the language
models, the search API or the LangGraph runtime, which are foreign: their
results are inputs to the model.

Modules:

- `Wrappers` (`wrappers.dfy`): `Option`, for state keys that may be absent or None.
- `Dispatch` (`dispatch.dfy`): `continue_to_web_research` and `evaluate_research`.
  These are pure routing functions, and the route is a tagged variant `WebBuild | Research(sends)`.
- `ResearchState` (`research_state.dfy`): the graph state dictionary as a class.
  `generate_query` fills in the default query count in place. `reflection` increments
  `research_loop_count` in place and reports `number_of_ran_queries`.
- `Search` (`web_research.dfy`): the retry/fallback chain of `web_research`. It is a method
  with the source's `for attempt in range(max_retries)` loop, proved equal to the
  specification function `Outcome`. Backoff sleeps are recorded as ghost delays.
- `ResearchLoop` (`research_loop.dfy`): a whole run as a function of the reflection
  verdicts. It proves which tasks a run issues (the initial queries, then each
  continuing reflection's follow-ups, numbered 0, 1, 2, …) and that the loop
  stops within max(`max_research_loops`, 1) reflections.
- `Filename` (`filename.dfy`): the report file name that `web_build` derives from the topic.

Assumptions the model makes about code that is not part of it:

- The `search_query` reducer of `agent/state.py` (not part of this model) appends.
  The state's `search_query` therefore grows by one entry per completed search,
  because `Search.Outcome` returns exactly `[query]`.
- The same file gives `follow_up_queries` and `research_loop_count` no accumulating
  reducer: each reflection overwrites them. `evaluate_research` therefore sees only the
  latest verdict's follow-up queries and the latest count. An appending reducer on
  `follow_up_queries` would make every loop send all earlier follow-ups again, under new ids.
- LangGraph runs `reflection` once per batch of searches. A conditional edge that
  returns an empty task list schedules nothing, so the run stops there without a report
  (`ResearchLoop.Ending.Stalled`).
- `str.isalnum` is Unicode-aware, so it is a parameter `isAlnum: char -> bool`.
  The model does not fix a character class for it.

Other behaviour of the code:

- The backoff is 2 s, then 4 s. Only three attempts exist, so there is never an 8 s wait.
- Each space of the topic becomes its own underscore; runs of spaces are not collapsed.
- The report step does no source filtering or short-URL replacement, because
  `finalize_answer` is commented out.
- The query list the language model returns is used as is. Nothing checks that it has the requested count.

## Model

| member | source | states |
|---|---|---|
| `Dispatch.Enumerate` | backend/src/agent/graph.py:264-273 | one task per query, in order, the i-th carrying the i-th query and id start + i |
| `Dispatch.EnumerateAppend` | backend/src/agent/graph.py:264-273 | enumerating a concatenation is enumerating its parts, the second part's ids continuing where the first part's stop |
| `Dispatch.EnumerateIdsIncreasing` | backend/src/agent/graph.py:269-272 | ids of an enumerated batch are strictly increasing and never below the starting number |
| `Dispatch.ContinueToWebResearch` | backend/src/agent/graph.py:85-93 | exactly one task per generated query, in order; the i-th has id i; no two tasks share an id |
| `Dispatch.EvaluateResearch` | backend/src/agent/graph.py:239-273 | routes to "web_build" if and only if the research is sufficient or the loop count reached the bound; the state's `max_research_loops` wins over the configured one when present; otherwise one task per follow-up query with id `number_of_ran_queries + idx` |
| `Dispatch.FollowUpIdsFresh` | backend/src/agent/graph.py:264-273 | follow-up ids strictly increase and are all at least `number_of_ran_queries`, so they avoid the ids already used |
| `Dispatch.NoFollowUpsNoTasks` | backend/src/agent/graph.py:261-273 | an insufficient verdict under the bound with no follow-up queries yields an empty task list, not "web_build" |
| `ResearchState.OverallState.GenerateQuery` | backend/src/agent/graph.py:65-82 | `initial_search_query_count` is set to the configured default only when absent; the prompt asks for the state's count; `query_list` is the language model's list |
| `ResearchState.OverallState.Reflection` | backend/src/agent/graph.py:216-236 | `research_loop_count` becomes its previous value (0 when absent) plus exactly one, whatever the verdict; the report carries the verdict, the new count and `number_of_ran_queries == len(search_query)` |
| `Search.Schedule` | backend/src/agent/graph.py:195-199 | the sleeps before attempt n are n values, the i-th being `base_delay * 2^i` |
| `Search.ScheduleIsTwoThenFour` | backend/src/agent/graph.py:117-199 | with three attempts the sleeps are 2 s then 4 s, none after the last attempt |
| `Search.FirstGrounded` | backend/src/agent/graph.py:120-146 | the attempt that returns is the first one that does not raise, and it is below `max_retries`; when there is none, every attempt raised |
| `Search.Outcome` | backend/src/agent/graph.py:142-194 | every path echoes the query as a one-element list and yields one text fragment; the first attempt that does not raise supplies the text and sources; all primaries failing gives the "#fallback" placeholder and the tagged fallback text, or no sources and the apology when the fallback raises as well |
| `Search.WebResearch` | backend/src/agent/graph.py:96-199 | always returns, never raises (given that its logging, sleeps and set-up succeed), and returns `Outcome`; makes 1 to 3 primary calls (a+1 when attempt a is the first success); calls the fallback exactly when all three fail; sleeps `2 * 2^i` after each failed attempt but the last |
| `ResearchLoop.RunFrom` | backend/src/agent/graph.py:202-273 | the sequence of routing decisions from a reflection on, one verdict per reflection, under the assumption that `search_query` grows by one entry per completed search: at most one reflection per verdict; a run that ends without running out of verdicts reflected at least once; a run that builds the report does so at a reflection whose verdict was sufficient or whose count reached the bound |
| `ResearchLoop.Run` | backend/src/agent/graph.py:397-411 | a run along the graph's edges from `generate_query`: its first tasks are exactly the fan-out of the initial queries; an empty initial list schedules nothing and ends the run at once; at most one reflection per verdict |
| `ResearchLoop.ContinuingStep` | backend/src/agent/graph.py:256-273 | a reflection that is insufficient, under the bound and has follow-ups issues exactly `Send(follow_up_queries[i], number_of_ran_queries + i)` and the run goes on from the next reflection with one more loop and that many more searches |
| `ResearchLoop.StoppingStep` | backend/src/agent/graph.py:256-273 | any other reflection is the run's last: it builds the report when the verdict is sufficient or the count reached the bound, and otherwise stalls with an empty task list |
| `ResearchLoop.RunFromContinues` | backend/src/agent/graph.py:261-273 | every reflection of a run but the last one was insufficient, under the bound and had follow-up queries; a run that used up its verdicts continued at each of them |
| `ResearchLoop.RunFromStops` | backend/src/agent/graph.py:261-273 | the last reflection builds the report if and only if its verdict is sufficient or the count reached the bound, and the run stalls if and only if neither holds and the verdict has no follow-up queries |
| `ResearchLoop.SufficientStops` | backend/src/agent/graph.py:261-262 | a sufficient verdict builds the report at that reflection, whatever the loop count, with no further tasks |
| `ResearchLoop.RunFromIssued` | backend/src/agent/graph.py:230-273 | the tasks issued from a reflection on are exactly the follow-up queries of the reflections that continued, batch after batch in order, with ids counting up from the number of searches already run |
| `ResearchLoop.RunIssued` | backend/src/agent/graph.py:85-273 | a whole run issues exactly the initial queries and then each continuing reflection's follow-up queries, in that order, the i-th task carrying id i |
| `ResearchLoop.FollowUpBatchScenario` | backend/src/agent/graph.py:85-273 | three initial queries, an insufficient verdict with two follow-ups, then a sufficient one: the follow-ups get ids 3 and 4 and the report is built after two reflections |
| `ResearchLoop.RunFromIds` | backend/src/agent/graph.py:230-273 | from any reflection on, the tasks issued carry the consecutive ids ran, ran+1, … in issuing order |
| `ResearchLoop.RunIdsUnique` | backend/src/agent/graph.py:85-273 | across a whole run the i-th task issued, initial or follow-up, has id i, so no two tasks share an id |
| `ResearchLoop.RunFromTerminates` | backend/src/agent/graph.py:218-262 | from loop count c, the run stops within max(L - c, 1) reflections, whatever the verdicts |
| `ResearchLoop.RunTerminates` | backend/src/agent/graph.py:256-262 | a run stops after at most max(`max_research_loops`, 1) reflections, whatever the verdicts |
| `ResearchLoop.RunFromUsesBudget` | backend/src/agent/graph.py:256-273 | if every verdict asks for more research with follow-ups, the run builds the report after exactly max(L - c, 1) reflections |
| `ResearchLoop.RunReachesBuildAtBound` | backend/src/agent/graph.py:256-262 | the termination bound is reached: such a run reflects exactly max(L, 1) times and then builds the report |
| `ResearchLoop.SingleLoopScenario` | backend/src/agent/graph.py:399-407 | two initial queries and a bound of 1: tasks 0 and 1, one reflection, then the report, whatever the verdict |
| `Filename.KeepAllowed` | backend/src/agent/graph.py:370 | keeps exactly the alphanumeric, space, hyphen and underscore characters of the topic |
| `Filename.KeepAllowedCounts` | backend/src/agent/graph.py:370 | every allowed character is kept as many times as it occurs in the topic, and no other character is kept |
| `Filename.KeepAllowedAppend` | backend/src/agent/graph.py:370 | the filter distributes over concatenation, so the kept characters stay in the topic's order |
| `Filename.RStripSpaces` | backend/src/agent/graph.py:370 | the result is a prefix of the input that does not end in a space, and only spaces were removed |
| `Filename.SpacesToUnderscores` | backend/src/agent/graph.py:371 | same length; each space becomes an underscore and every other character is kept |
| `Filename.SafeFilename` | backend/src/agent/graph.py:370-371 | at most 50 characters, no spaces, only alphanumerics, hyphens and underscores |
| `Filename.HtmlFilename` | backend/src/agent/graph.py:365-372 | the path starts with "output/", ends with "_research.html", holds the name in between, has no spaces and is at most 71 characters |
| `Filename.SafeFilenameChars` | backend/src/agent/graph.py:370-371 | the name is the filtered, right-stripped topic with spaces turned into underscores, cut only beyond 50 characters |
| `Filename.KeepAllowedUnchanged` | backend/src/agent/graph.py:370 | the filter leaves a string of allowed characters unchanged |
| `Filename.SafeFilenameIdempotent` | backend/src/agent/graph.py:370-371 | sanitising an already sanitised name gives it back unchanged |
| `Filename.SafeFilenameEmpty` | backend/src/agent/graph.py:370-372 | the name is empty if and only if the topic has no allowed character other than spaces |
| `Filename.FilenameExample` | backend/src/agent/graph.py:370-371 | with ASCII alphanumerics, the topic "A b! " gives the name "A_b" |

## Left out

- Language-model and search calls (graph.py:43-49, 71, 81, 123-130, 157-175, 228, 362) are foreign. Their results are inputs: the query list, the reflection verdict, one outcome per primary attempt, one fallback outcome.
- `resolve_urls`, `get_citations`, `insert_citation_markers` and `get_research_topic` come from `agent/utils.py`, which is not part of this model. A successful attempt's marked-up text and sources are inputs. An exception inside that processing counts as a failed attempt, as in the source's `try` block.
- LangGraph itself is not part of this model: `StateGraph`, the edges, `compile`, the parallel `Send` fan-out and the state reducers of `agent/state.py`. The run model assumes that searches append to `search_query` and that one reflection follows each batch.
- `Search.WebResearch` treats every exception the same way, including one raised while the fallback client is being constructed. Exceptions that are not `Exception` subclasses, such as a keyboard interrupt, are not modelled.
- A `research_loop_count` key that is present but set to None is treated like an absent key, so the count becomes 1. The source computes `None + 1` there (graph.py:218) and raises a `TypeError`.
- `time.sleep`, the log `print`s, `load_dotenv`, the API-key check, `os.makedirs` and the file write are I/O and are left out. Sleeps appear only as ghost delay values. The guarantee that `Search.WebResearch` never raises covers the retry and fallback control only. It assumes that the log `print`s in the `except` handlers (graph.py:150, 154, 188, 198), the `time.sleep` (graph.py:199) and the set-up before the loop (graph.py:110-114) do not raise.
- Prompt formatting, `get_current_date` and the `reasoning_model` lookup (graph.py:219) are left out. The looked-up model name is never used.
- Of `web_build`, only the file-name derivation is modelled. The HTML generation and the message it appends are not.
- `finalize_answer` (graph.py:276-332) is commented out and is not modelled.
- `backend/src/test.py` and `backend/print_message_content.py` are console drivers and printers, so they are not modelled.
- Filename.RStripSpaces: strips spaces only, where Python's `rstrip()` strips every whitespace character. After the filter, the only whitespace left is the space, because no character is both alphanumeric and whitespace in Python.
- In the run model, an empty follow-up list ends the run instead of leading to another reflection. This reflects how LangGraph treats an empty task list; graph.py alone does not decide it.

=== FILE: dispatch.dfy ===
/**
 * The two routing decisions of the research graph: the fan-out after query
 * generation (`continue_to_web_research`) and the decision after each
 * reflection (`evaluate_research`). Both are pure: they read the graph state
 * and return what LangGraph should run next.
 */
module Dispatch {
  import opened Wrappers

  /** `Send("web_research", {"search_query": query, "id": id})`: one research task. */
  datatype Send = Send(query: string, id: int)

  /** What `evaluate_research` returns: the node name "web_build", or a list of research tasks. */
  datatype Route = WebBuild | Research(sends: seq<Send>)

  /** The part of the graph state `evaluate_research` reads (the output of `reflection`). */
  datatype ReflectionState = ReflectionState(
    isSufficient: bool,
    knowledgeGap: string,
    followUpQueries: seq<string>,
    researchLoopCount: int,
    numberOfRanQueries: nat)

  /** `enumerate(queries)` turned into tasks whose ids count up from `start`. */
  function Enumerate(queries: seq<string>, start: int): (r: seq<Send>)
    ensures |r| == |queries|
    ensures forall i {:trigger r[i]} :: 0 <= i < |r| ==> r[i].query == queries[i] && r[i].id == start + i
    decreases |queries|
  {
    if queries == [] then [] else [Send(queries[0], start)] + Enumerate(queries[1..], start + 1)
  }

  /** Ids handed out by `Enumerate` strictly increase and never go below `start`. */
  lemma EnumerateIdsIncreasing(queries: seq<string>, start: int)
    ensures var r := Enumerate(queries, start);
      forall i, j :: 0 <= i < j < |r| ==> start <= r[i].id < r[j].id
  {
  }

  /**
   * Enumerating two lists one after the other, the second from `mid`, the id
   * after the first list's last, is enumerating their concatenation.
   */
  lemma EnumerateAppend(a: seq<string>, b: seq<string>, start: int, mid: int)
    requires mid == start + |a|
    ensures Enumerate(a + b, start) == Enumerate(a, start) + Enumerate(b, mid)
  {
    var l, r := Enumerate(a + b, start), Enumerate(a, start) + Enumerate(b, mid);
    forall i | 0 <= i < |l| ensures l[i] == r[i] {
      if i >= |a| {
        assert r[i] == Enumerate(b, mid)[i - |a|];
      }
    }
  }

  /** The fan-out after `generate_query`: one task per query, in order, with ids 0..k-1. */
  function ContinueToWebResearch(queryList: seq<string>): (r: seq<Send>)
    ensures |r| == |queryList|
    ensures forall i :: 0 <= i < |r| ==> r[i] == Send(queryList[i], i)
    ensures forall i, j :: 0 <= i < |r| && 0 <= j < |r| && i != j ==> r[i].id != r[j].id
  {
    Enumerate(queryList, 0)
  }

  /** `max_research_loops` of the state when it is not None, the configured value otherwise. */
  function MaxResearchLoops(stateMax: Option<int>, configured: int): int {
    stateMax.GetOr(configured)
  }

  /**
   * The routing after a reflection: "web_build" when the research is judged
   * sufficient or the loop bound is reached, otherwise one task per follow-up
   * query with ids continuing from the number of queries already run.
   */
  function EvaluateResearch(s: ReflectionState, stateMax: Option<int>, configured: int): (r: Route)
    ensures stateMax.Some? ==>
      (r.WebBuild? <==> s.isSufficient || s.researchLoopCount >= stateMax.value)
    ensures stateMax.None? ==>
      (r.WebBuild? <==> s.isSufficient || s.researchLoopCount >= configured)
    ensures r.Research? ==> |r.sends| == |s.followUpQueries|
    ensures r.Research? ==> forall i :: 0 <= i < |r.sends| ==>
      r.sends[i] == Send(s.followUpQueries[i], s.numberOfRanQueries + i)
  {
    if s.isSufficient || s.researchLoopCount >= MaxResearchLoops(stateMax, configured) then
      WebBuild
    else
      Research(Enumerate(s.followUpQueries, s.numberOfRanQueries))
  }

  /**
   * Follow-up ids are strictly increasing and at least `number_of_ran_queries`,
   * so they never collide with the ids 0..number_of_ran_queries-1 already used.
   */
  lemma FollowUpIdsFresh(s: ReflectionState, stateMax: Option<int>, configured: int)
    ensures var r := EvaluateResearch(s, stateMax, configured);
      r.Research? ==>
        (forall i, j :: 0 <= i < j < |r.sends| ==> r.sends[i].id < r.sends[j].id) &&
        (forall i :: 0 <= i < |r.sends| ==> r.sends[i].id >= s.numberOfRanQueries)
  {
  }

  /** Once the research is insufficient and under the bound, an empty follow-up list gives an empty task list. */
  lemma NoFollowUpsNoTasks(s: ReflectionState, stateMax: Option<int>, configured: int)
    requires !s.isSufficient && s.researchLoopCount < MaxResearchLoops(stateMax, configured)
    requires s.followUpQueries == []
    ensures EvaluateResearch(s, stateMax, configured) == Research([])
  {
  }
}

=== FILE: filename.dfy ===
/**
 * The output file name `web_build` derives from the research topic. Python's
 * `str.isalnum` is Unicode-aware, so it is a parameter here (`isAlnum`) rather
 * than a fixed character class.
 */
module Filename {

  const OutputDir := "output"
  const MaxNameLength: nat := 50
  const Suffix := "_research.html"

  /** The characters the name may keep: alphanumerics, space, hyphen and underscore. */
  predicate Allowed(isAlnum: char -> bool, c: char) {
    isAlnum(c) || c == ' ' || c == '-' || c == '_'
  }

  /** The generator filter: the allowed characters of `s`, in order. */
  function KeepAllowed(isAlnum: char -> bool, s: string): (r: string)
    ensures |r| <= |s|
    ensures forall i :: 0 <= i < |r| ==> Allowed(isAlnum, r[i])
    ensures forall c :: c in r <==> c in s && Allowed(isAlnum, c)
  {
    if s == [] then []
    else (if Allowed(isAlnum, s[0]) then [s[0]] else []) + KeepAllowed(isAlnum, s[1..])
  }

  /** `rstrip()`: drops the trailing run of spaces and nothing else. */
  function RStripSpaces(s: string): (r: string)
    ensures r <= s
    ensures r == [] || r[|r| - 1] != ' '
    ensures forall i :: |r| <= i < |s| ==> s[i] == ' '
  {
    if s != [] && s[|s| - 1] == ' ' then RStripSpaces(s[..|s| - 1]) else s
  }

  /** `replace(' ', '_')`: every space becomes an underscore, every other character stays. */
  function SpacesToUnderscores(s: string): (r: string)
    ensures |r| == |s|
    ensures forall i :: 0 <= i < |s| ==> r[i] == if s[i] == ' ' then '_' else s[i]
  {
    if s == [] then [] else [if s[0] == ' ' then '_' else s[0]] + SpacesToUnderscores(s[1..])
  }

  /** The slice `s[:n]`. */
  function Truncate(s: string, n: nat): string {
    if |s| <= n then s else s[..n]
  }

  /** The file name stem derived from the research topic. */
  function SafeFilename(isAlnum: char -> bool, topic: string): (r: string)
    ensures |r| <= MaxNameLength
    ensures ' ' !in r
    ensures forall i :: 0 <= i < |r| ==> isAlnum(r[i]) || r[i] == '-' || r[i] == '_'
  {
    Truncate(SpacesToUnderscores(RStripSpaces(KeepAllowed(isAlnum, topic))), MaxNameLength)
  }

  /** The path the report is written to: "output/<name>_research.html". */
  function HtmlFilename(isAlnum: char -> bool, topic: string): (r: string)
    ensures |OutputDir + "/"| + |Suffix| <= |r| <= |OutputDir + "/"| + MaxNameLength + |Suffix|
    ensures r[..|OutputDir + "/"|] == "output/"
    ensures r[|r| - |Suffix|..] == "_research.html"
    ensures r[|OutputDir + "/"|..|r| - |Suffix|] == SafeFilename(isAlnum, topic)
    ensures ' ' !in r
  {
    var name := SafeFilename(isAlnum, topic);
    var r := OutputDir + "/" + name + Suffix;
    assert r[..|OutputDir + "/"|] == OutputDir + "/";
    assert r[|r| - |Suffix|..] == Suffix;
    assert r[|OutputDir + "/"|..|r| - |Suffix|] == name;
    r
  }

  /**
   * Before truncation, the name is the filtered and right-stripped topic with
   * its spaces turned into underscores; it is cut only beyond 50 characters.
   */
  lemma SafeFilenameChars(isAlnum: char -> bool, topic: string)
    ensures var k := RStripSpaces(KeepAllowed(isAlnum, topic));
      var r := SafeFilename(isAlnum, topic);
      |r| == (if |k| <= MaxNameLength then |k| else MaxNameLength) &&
      forall i :: 0 <= i < |r| ==> r[i] == if k[i] == ' ' then '_' else k[i]
  {
  }

  /** The filter works character by character, so it keeps the order of the topic. */
  lemma {:induction false} KeepAllowedAppend(isAlnum: char -> bool, s: string, t: string)
    ensures KeepAllowed(isAlnum, s + t) == KeepAllowed(isAlnum, s) + KeepAllowed(isAlnum, t)
    decreases |s|
  {
    if s != [] {
      assert (s + t)[1..] == s[1..] + t;
      KeepAllowedAppend(isAlnum, s[1..], t);
    } else {
      assert s + t == t;
    }
  }

  /** Each allowed character is kept as often as it occurs in the topic; no other character is kept. */
  lemma {:induction false} KeepAllowedCounts(isAlnum: char -> bool, s: string)
    ensures forall c :: multiset(KeepAllowed(isAlnum, s))[c] == if Allowed(isAlnum, c) then multiset(s)[c] else 0
  {
    if s != [] {
      KeepAllowedCounts(isAlnum, s[1..]);
      assert s == [s[0]] + s[1..];
      assert multiset(s) == multiset([s[0]]) + multiset(s[1..]);
    }
  }

  lemma {:induction false} KeepAllowedUnchanged(isAlnum: char -> bool, s: string)
    requires forall i :: 0 <= i < |s| ==> Allowed(isAlnum, s[i])
    ensures KeepAllowed(isAlnum, s) == s
  {
    if s != [] {
      KeepAllowedUnchanged(isAlnum, s[1..]);
    }
  }

  /** Sanitising a sanitised name changes nothing. */
  lemma SafeFilenameIdempotent(isAlnum: char -> bool, topic: string)
    ensures SafeFilename(isAlnum, SafeFilename(isAlnum, topic)) == SafeFilename(isAlnum, topic)
  {
    var name := SafeFilename(isAlnum, topic);
    KeepAllowedUnchanged(isAlnum, name);
    assert RStripSpaces(name) == name;
    var u := SpacesToUnderscores(name);
    assert u == name;
  }

  /**
   * The name is empty exactly when the topic keeps no allowed character other
   * than spaces, in which case the report goes to "output/_research.html".
   */
  lemma SafeFilenameEmpty(isAlnum: char -> bool, topic: string)
    ensures SafeFilename(isAlnum, topic) == [] <==>
      forall c :: c in topic && Allowed(isAlnum, c) ==> c == ' '
  {
  }

  /** ASCII letters and digits, one possible reading of `isalnum` (used in the worked case only). */
  predicate AsciiAlnum(c: char) {
    ('a' <= c <= 'z') || ('A' <= c <= 'Z') || ('0' <= c <= '9')
  }

  /** A worked case: punctuation is dropped, trailing spaces stripped, the inner space replaced. */
  lemma FilenameExample()
    ensures SafeFilename(AsciiAlnum, "A b! ") == "A_b"
  {
    FilterExample();
    assert RStripSpaces("A b ") == "A b" by {
      assert "A b "[..3] == "A b";
    }
    assert SpacesToUnderscores("A b") == "A_b" by {
      assert "A b"[1..] == " b" && " b"[1..] == "b";
    }
  }

  /** The filter step of the worked case: '!' is dropped, the spaces stay. */
  lemma FilterExample()
    ensures KeepAllowed(AsciiAlnum, "A b! ") == "A b "
  {
  }
}

=== FILE: research_loop.dfy ===
/**
 * A whole research run as the graph drives it: `generate_query` fans out the
 * initial queries, every batch of searches is followed by one `reflection`,
 * and `evaluate_research` either builds the report or fans out the follow-up
 * queries. The reflection verdicts are inputs (one per reflection). The
 * state's `search_query` list is assumed to grow by one entry per completed
 * search, so `number_of_ran_queries` is the number of tasks issued so far.
 * An empty task list schedules nothing, so the run stops there without a report.
 */
module ResearchLoop {
  import opened Wrappers
  import opened Dispatch
  import opened ResearchState

  datatype Ending = Built | Stalled | OutOfVerdicts

  /** How a run ends, how many reflections it made, and every task it issued, in order. */
  datatype Trace = Trace(ending: Ending, reflections: nat, issued: seq<Send>)

  /**
   * Whether the routing after a reflection with verdict `v` and new loop count
   * `count` sends follow-up work: insufficient, under the bound, and with at
   * least one follow-up query.
   */
  predicate Continues(v: Verdict, count: int, maxLoops: int) {
    !v.isSufficient && count < maxLoops && v.followUpQueries != []
  }

  /**
   * The run from a reflection onwards, with `loopCount` the state's
   * `research_loop_count` and `ran` searches completed so far. Each step is
   * what `OverallState.Reflection` computes (the count `NextLoopCount`, the
   * number of ran queries) followed by `EvaluateResearch`.
   */
  function RunFrom(loopCount: Option<int>, ran: nat, verdicts: seq<Verdict>,
                   stateMax: Option<int>, configured: int): (r: Trace)
    ensures r.reflections <= |verdicts|
    ensures r.ending == OutOfVerdicts ==> r.reflections == |verdicts|
    ensures r.ending != OutOfVerdicts ==> 1 <= r.reflections
    ensures r.ending == Built ==>
      var k := r.reflections - 1;
      verdicts[k].isSufficient || NextLoopCount(loopCount) + k >= MaxResearchLoops(stateMax, configured)
    decreases |verdicts|
  {
    if verdicts == [] then Trace(OutOfVerdicts, 0, [])
    else
      var v := verdicts[0];
      var count := NextLoopCount(loopCount);
      var s := ReflectionState(v.isSufficient, v.knowledgeGap, v.followUpQueries, count, ran);
      match EvaluateResearch(s, stateMax, configured)
      case WebBuild => Trace(Built, 1, [])
      case Research(sends) =>
        if sends == [] then Trace(Stalled, 1, [])
        else
          var t := RunFrom(Some(count), ran + |sends|, verdicts[1..], stateMax, configured);
          Trace(t.ending, t.reflections + 1, sends + t.issued)
  }

  /** A reflection that continues issues its batch, and the run goes on from the next reflection. */
  lemma ContinuingStep(loopCount: Option<int>, ran: nat, verdicts: seq<Verdict>,
                       stateMax: Option<int>, configured: int)
    requires verdicts != []
    requires Continues(verdicts[0], NextLoopCount(loopCount), MaxResearchLoops(stateMax, configured))
    ensures var qs := verdicts[0].followUpQueries;
      var t := RunFrom(Some(NextLoopCount(loopCount)), ran + |qs|, verdicts[1..], stateMax, configured);
      RunFrom(loopCount, ran, verdicts, stateMax, configured)
        == Trace(t.ending, t.reflections + 1, Enumerate(qs, ran) + t.issued)
  {
    var v := verdicts[0];
    var e := EvaluateResearch(ReflectionState(v.isSufficient, v.knowledgeGap, v.followUpQueries,
                                              NextLoopCount(loopCount), ran), stateMax, configured);
    assert e == Research(Enumerate(v.followUpQueries, ran));
  }

  /** A reflection that does not continue ends the run there: with the report when its verdict is sufficient or the bound is reached, stalled otherwise. */
  lemma StoppingStep(loopCount: Option<int>, ran: nat, verdicts: seq<Verdict>,
                     stateMax: Option<int>, configured: int)
    requires verdicts != []
    requires !Continues(verdicts[0], NextLoopCount(loopCount), MaxResearchLoops(stateMax, configured))
    ensures var v := verdicts[0];
      var built := v.isSufficient || NextLoopCount(loopCount) >= MaxResearchLoops(stateMax, configured);
      RunFrom(loopCount, ran, verdicts, stateMax, configured) == Trace(if built then Built else Stalled, 1, [])
  {
  }

  /**
   * Every reflection but the last one continued: it was insufficient, under
   * the bound, and had follow-ups; a run that used up its verdicts continued
   * at every one of them.
   */
  lemma {:induction false} RunFromContinues(loopCount: Option<int>, ran: nat, verdicts: seq<Verdict>,
                                            stateMax: Option<int>, configured: int)
    ensures var r := RunFrom(loopCount, ran, verdicts, stateMax, configured);
      var n := if r.ending == OutOfVerdicts then r.reflections else r.reflections - 1;
      forall k :: 0 <= k < n ==>
        Continues(verdicts[k], NextLoopCount(loopCount) + k, MaxResearchLoops(stateMax, configured))
    decreases |verdicts|
  {
    if verdicts != [] {
      var count := NextLoopCount(loopCount);
      var l := MaxResearchLoops(stateMax, configured);
      if Continues(verdicts[0], count, l) {
        var rest := verdicts[1..];
        var next := ran + |verdicts[0].followUpQueries|;
        var t := RunFrom(Some(count), next, rest, stateMax, configured);
        ContinuingStep(loopCount, ran, verdicts, stateMax, configured);
        RunFromContinues(Some(count), next, rest, stateMax, configured);
        var r := RunFrom(loopCount, ran, verdicts, stateMax, configured);
        var n := if r.ending == OutOfVerdicts then r.reflections else r.reflections - 1;
        assert n == (if t.ending == OutOfVerdicts then t.reflections else t.reflections - 1) + 1;
        forall k | 0 <= k < n ensures Continues(verdicts[k], count + k, l) {
          if k > 0 {
            assert verdicts[k] == rest[k - 1];
            assert Continues(rest[k - 1], NextLoopCount(Some(count)) + (k - 1), l);
          }
        }
      } else {
        StoppingStep(loopCount, ran, verdicts, stateMax, configured);
      }
    }
  }

  /**
   * The last reflection of a run that stopped decides how: it builds the
   * report exactly when its verdict is sufficient or the bound is reached,
   * and stalls exactly when neither holds and it has no follow-ups.
   */
  lemma {:induction false} RunFromStops(loopCount: Option<int>, ran: nat, verdicts: seq<Verdict>,
                                        stateMax: Option<int>, configured: int)
    ensures var r := RunFrom(loopCount, ran, verdicts, stateMax, configured);
      r.ending != OutOfVerdicts ==>
        var k := r.reflections - 1;
        var l := MaxResearchLoops(stateMax, configured);
        (r.ending == Built <==> verdicts[k].isSufficient || NextLoopCount(loopCount) + k >= l) &&
        (r.ending == Stalled <==> !verdicts[k].isSufficient && NextLoopCount(loopCount) + k < l &&
                                  verdicts[k].followUpQueries == [])
    decreases |verdicts|
  {
    if verdicts != [] {
      var count := NextLoopCount(loopCount);
      if Continues(verdicts[0], count, MaxResearchLoops(stateMax, configured)) {
        var rest := verdicts[1..];
        var next := ran + |verdicts[0].followUpQueries|;
        var t := RunFrom(Some(count), next, rest, stateMax, configured);
        ContinuingStep(loopCount, ran, verdicts, stateMax, configured);
        RunFromStops(Some(count), next, rest, stateMax, configured);
        if t.ending != OutOfVerdicts {
          assert verdicts[t.reflections] == rest[t.reflections - 1];
        }
      } else {
        StoppingStep(loopCount, ran, verdicts, stateMax, configured);
      }
    }
  }

  /** A sufficient verdict stops the run at that reflection with the report, whatever the count. */
  lemma SufficientStops(loopCount: Option<int>, ran: nat, verdicts: seq<Verdict>,
                        stateMax: Option<int>, configured: int)
    requires verdicts != [] && verdicts[0].isSufficient
    ensures RunFrom(loopCount, ran, verdicts, stateMax, configured) == Trace(Built, 1, [])
  {
  }

  /** A run of the graph from `generate_query`, whose model produced `initialQueries`. */
  function Run(initialQueries: seq<string>, verdicts: seq<Verdict>,
               stateMax: Option<int>, configured: int): (r: Trace)
    ensures |ContinueToWebResearch(initialQueries)| <= |r.issued|
    ensures r.issued[..|initialQueries|] == ContinueToWebResearch(initialQueries)
    ensures r.reflections <= |verdicts|
    ensures initialQueries == [] ==> r.ending == Stalled && r.reflections == 0 && r.issued == []
  {
    var first := ContinueToWebResearch(initialQueries);
    if first == [] then Trace(Stalled, 0, [])
    else
      var t := RunFrom(None, |first|, verdicts, stateMax, configured);
      Trace(t.ending, t.reflections, first + t.issued)
  }

  /** The most reflections a run starting with loop count `loopCount` can make under bound `maxLoops`. */
  function Budget(loopCount: Option<int>, maxLoops: int): nat {
    var left := maxLoops - loopCount.GetOr(0);
    if left >= 1 then left else 1
  }

  /** The follow-up queries of the first `n` verdicts, one batch after the other. */
  function FollowUps(verdicts: seq<Verdict>, n: nat): seq<string>
    requires n <= |verdicts|
  {
    if n == 0 then [] else verdicts[0].followUpQueries + FollowUps(verdicts[1..], n - 1)
  }

  /** The number of reflections of a trace that sent follow-up work. */
  function Continued(t: Trace): nat {
    if t.ending == OutOfVerdicts then t.reflections
    else if t.reflections == 0 then 0
    else t.reflections - 1
  }

  /**
   * The tasks issued from a reflection onwards are exactly the follow-up
   * queries of the continuing reflections, batch after batch, in order, with
   * ids counting up from the number of searches already run.
   */
  lemma {:induction false} RunFromIssued(loopCount: Option<int>, ran: nat, verdicts: seq<Verdict>,
                                         stateMax: Option<int>, configured: int)
    ensures var r := RunFrom(loopCount, ran, verdicts, stateMax, configured);
      Continued(r) <= |verdicts| && r.issued == Enumerate(FollowUps(verdicts, Continued(r)), ran)
    decreases |verdicts|
  {
    if verdicts != [] {
      if Continues(verdicts[0], NextLoopCount(loopCount), MaxResearchLoops(stateMax, configured)) {
        ContinuingStepIssues(loopCount, ran, verdicts, stateMax, configured);
      }
    }
  }

  /** One continuing step of `RunFromIssued`: this batch, then the rest of the run. */
  lemma {:induction false} ContinuingStepIssues(loopCount: Option<int>, ran: nat, verdicts: seq<Verdict>,
                                                stateMax: Option<int>, configured: int)
    requires verdicts != []
    requires Continues(verdicts[0], NextLoopCount(loopCount), MaxResearchLoops(stateMax, configured))
    ensures var r := RunFrom(loopCount, ran, verdicts, stateMax, configured);
      Continued(r) <= |verdicts| && r.issued == Enumerate(FollowUps(verdicts, Continued(r)), ran)
    decreases |verdicts|, 0
  {
    var next := ran + |verdicts[0].followUpQueries|;
    var t := RunFrom(Some(NextLoopCount(loopCount)), next, verdicts[1..], stateMax, configured);
    ContinuingStep(loopCount, ran, verdicts, stateMax, configured);
    RunFromIssued(Some(NextLoopCount(loopCount)), next, verdicts[1..], stateMax, configured);
    PrependBatch(verdicts, ran, t);
  }

  /**
   * Issuing the first verdict's batch in front of a trace whose tasks are the
   * follow-ups of the remaining verdicts gives the follow-ups of all of them.
   */
  lemma PrependBatch(verdicts: seq<Verdict>, ran: nat, t: Trace)
    requires verdicts != []
    requires t.ending != OutOfVerdicts ==> 1 <= t.reflections
    requires Continued(t) < |verdicts|
    requires t.issued == Enumerate(FollowUps(verdicts[1..], Continued(t)), ran + |verdicts[0].followUpQueries|)
    ensures var r := Trace(t.ending, t.reflections + 1, Enumerate(verdicts[0].followUpQueries, ran) + t.issued);
      Continued(r) <= |verdicts| && r.issued == Enumerate(FollowUps(verdicts, Continued(r)), ran)
  {
    var n := Continued(t);
    assert Continued(Trace(t.ending, t.reflections + 1, Enumerate(verdicts[0].followUpQueries, ran) + t.issued)) == n + 1;
    EnumerateFollowUps(verdicts, n, ran);
  }

  /** The tasks for the follow-ups of `n + 1` verdicts: the first verdict's batch, then those of the next `n`. */
  lemma EnumerateFollowUps(verdicts: seq<Verdict>, n: nat, ran: int)
    requires n < |verdicts|
    ensures Enumerate(FollowUps(verdicts, n + 1), ran)
         == Enumerate(verdicts[0].followUpQueries, ran)
          + Enumerate(FollowUps(verdicts[1..], n), ran + |verdicts[0].followUpQueries|)
  {
    EnumerateAppend(verdicts[0].followUpQueries, FollowUps(verdicts[1..], n), ran, ran + |verdicts[0].followUpQueries|);
  }

  /**
   * A whole run issues the initial queries, then the follow-up queries of
   * every continuing reflection, in order, numbered 0, 1, 2, ...
   */
  lemma RunIssued(initialQueries: seq<string>, verdicts: seq<Verdict>,
                  stateMax: Option<int>, configured: int)
    ensures var r := Run(initialQueries, verdicts, stateMax, configured);
      Continued(r) <= |verdicts| && r.issued == Enumerate(initialQueries + FollowUps(verdicts, Continued(r)), 0)
  {
    if initialQueries != [] {
      var t := RunFrom(None, |initialQueries|, verdicts, stateMax, configured);
      RunFromIssued(None, |initialQueries|, verdicts, stateMax, configured);
      var r := Run(initialQueries, verdicts, stateMax, configured);
      assert r == Trace(t.ending, t.reflections, Enumerate(initialQueries, 0) + t.issued);
      assert Continued(r) == Continued(t);
      EnumerateAppend(initialQueries, FollowUps(verdicts, Continued(t)), 0, |initialQueries|);
    }
  }

  /**
   * Three initial queries, then one reflection asking for two more, then a
   * sufficient one: the follow-ups get ids 3 and 4 and the report is built.
   */
  lemma FollowUpBatchScenario(gap: string)
    ensures var r := Run(["a", "b", "c"], [Verdict(false, gap, ["d", "e"]), Verdict(true, gap, [])], None, 3);
      r.ending == Built && r.reflections == 2 &&
      r.issued == [Send("a", 0), Send("b", 1), Send("c", 2), Send("d", 3), Send("e", 4)]
  {
    var vs := [Verdict(false, gap, ["d", "e"]), Verdict(true, gap, [])];
    assert vs[1..] == [Verdict(true, gap, [])];
    assert RunFrom(Some(1), 5, vs[1..], None, 3) == Trace(Built, 1, []);
    ContinuingStep(None, 3, vs, None, 3);
    RunIssued(["a", "b", "c"], vs, None, 3);
    assert FollowUps(vs, 1) == ["d", "e"];
    assert ["a", "b", "c"] + ["d", "e"] == ["a", "b", "c", "d", "e"];
  }

  /** The tasks carry the ids start, start+1, ... in order. */
  predicate IdsFrom(sends: seq<Send>, start: int) {
    forall i :: 0 <= i < |sends| ==> sends[i].id == start + i
  }

  /** Tasks issued from a reflection onwards carry the ids ran, ran+1, ... in order. */
  lemma RunFromIds(loopCount: Option<int>, ran: nat, verdicts: seq<Verdict>,
                   stateMax: Option<int>, configured: int)
    ensures IdsFrom(RunFrom(loopCount, ran, verdicts, stateMax, configured).issued, ran)
  {
    RunFromIssued(loopCount, ran, verdicts, stateMax, configured);
  }

  /**
   * Across a whole run, the i-th task issued carries id i: initial and
   * follow-up ids never collide and increase in issuing order.
   */
  lemma RunIdsUnique(initialQueries: seq<string>, verdicts: seq<Verdict>,
                     stateMax: Option<int>, configured: int)
    ensures var t := Run(initialQueries, verdicts, stateMax, configured);
      (forall i :: 0 <= i < |t.issued| ==> t.issued[i].id == i) &&
      (forall i, j :: 0 <= i < |t.issued| && 0 <= j < |t.issued| && i != j ==> t.issued[i].id != t.issued[j].id)
  {
    RunIssued(initialQueries, verdicts, stateMax, configured);
  }

  /**
   * From loop count `loopCount`, the run stops (with a report, or on an empty
   * task list) within `Budget(loopCount, L)` reflections, whatever the verdicts.
   */
  lemma {:induction false} RunFromTerminates(loopCount: Option<int>, ran: nat, verdicts: seq<Verdict>,
                                             stateMax: Option<int>, configured: int)
    requires |verdicts| >= Budget(loopCount, MaxResearchLoops(stateMax, configured))
    ensures var t := RunFrom(loopCount, ran, verdicts, stateMax, configured);
      t.ending != OutOfVerdicts && 1 <= t.reflections <= Budget(loopCount, MaxResearchLoops(stateMax, configured))
    decreases |verdicts|
  {
    var count := NextLoopCount(loopCount);
    if Continues(verdicts[0], count, MaxResearchLoops(stateMax, configured)) {
      ContinuingStep(loopCount, ran, verdicts, stateMax, configured);
      RunFromTerminates(Some(count), ran + |verdicts[0].followUpQueries|, verdicts[1..], stateMax, configured);
    } else {
      StoppingStep(loopCount, ran, verdicts, stateMax, configured);
    }
  }

  /**
   * Loop termination: a run makes at most max(max_research_loops, 1)
   * reflections and then stops, whatever the verdicts are.
   */
  lemma RunTerminates(initialQueries: seq<string>, verdicts: seq<Verdict>,
                      stateMax: Option<int>, configured: int)
    requires |verdicts| >= Budget(None, MaxResearchLoops(stateMax, configured))
    ensures var t := Run(initialQueries, verdicts, stateMax, configured);
      var l := MaxResearchLoops(stateMax, configured);
      t.ending != OutOfVerdicts && t.reflections <= (if l >= 1 then l else 1)
  {
    if initialQueries != [] {
      RunFromTerminates(None, |initialQueries|, verdicts, stateMax, configured);
    }
  }

  /** A verdict that asks for more research and names at least one follow-up query. */
  predicate Unsatisfied(v: Verdict) {
    !v.isSufficient && v.followUpQueries != []
  }

  /** The bound is tight: if every verdict asks for more, the run builds the report after exactly the budget. */
  lemma {:induction false} RunFromUsesBudget(loopCount: Option<int>, ran: nat, verdicts: seq<Verdict>,
                                             stateMax: Option<int>, configured: int)
    requires |verdicts| >= Budget(loopCount, MaxResearchLoops(stateMax, configured))
    requires forall i :: 0 <= i < |verdicts| ==> Unsatisfied(verdicts[i])
    ensures var t := RunFrom(loopCount, ran, verdicts, stateMax, configured);
      t.ending == Built && t.reflections == Budget(loopCount, MaxResearchLoops(stateMax, configured))
    decreases |verdicts|
  {
    assert Unsatisfied(verdicts[0]);
    var count := NextLoopCount(loopCount);
    if Continues(verdicts[0], count, MaxResearchLoops(stateMax, configured)) {
      ContinuingStep(loopCount, ran, verdicts, stateMax, configured);
      assert forall i :: 0 <= i < |verdicts[1..]| ==> verdicts[1..][i] == verdicts[i + 1];
      RunFromUsesBudget(Some(count), ran + |verdicts[0].followUpQueries|, verdicts[1..], stateMax, configured);
    } else {
      StoppingStep(loopCount, ran, verdicts, stateMax, configured);
    }
  }

  /** With a non-empty initial batch and only dissatisfied verdicts, the run reflects exactly max(L, 1) times and builds the report. */
  lemma RunReachesBuildAtBound(initialQueries: seq<string>, verdicts: seq<Verdict>,
                               stateMax: Option<int>, configured: int)
    requires initialQueries != []
    requires |verdicts| >= Budget(None, MaxResearchLoops(stateMax, configured))
    requires forall i :: 0 <= i < |verdicts| ==> Unsatisfied(verdicts[i])
    ensures var t := Run(initialQueries, verdicts, stateMax, configured);
      var l := MaxResearchLoops(stateMax, configured);
      t.ending == Built && t.reflections == (if l >= 1 then l else 1)
  {
    RunFromUsesBudget(None, |initialQueries|, verdicts, stateMax, configured);
  }

  /**
   * Two initial queries and a bound of one loop: tasks 0 and 1, a single
   * reflection, then the report, whatever that reflection's verdict.
   */
  lemma SingleLoopScenario(v: Verdict)
    ensures var t := Run(["q0", "q1"], [v], None, 1);
      t.ending == Built && t.reflections == 1 && |t.issued| == 2 &&
      t.issued[0].id == 0 && t.issued[1].id == 1
  {
  }
}

=== FILE: research_state.dfy ===
/**
 * The graph state dictionary, as far as the nodes `generate_query` and
 * `reflection` write into it in place. The language-model calls of those
 * nodes are foreign: their structured results are passed in.
 */
module ResearchState {
  import opened Wrappers
  import opened Dispatch

  /** The structured verdict the reflection model returns. */
  datatype Verdict = Verdict(isSufficient: bool, knowledgeGap: string, followUpQueries: seq<string>)

  /** `research_loop_count` after one more reflection: the previous value (0 when the key is absent) plus one. */
  function NextLoopCount(previous: Option<int>): int {
    previous.GetOr(0) + 1
  }

  /** The number of initial queries asked for: the state's value when present, the configured one otherwise. */
  function InitialQueryCount(stateCount: Option<int>, configured: int): int {
    stateCount.GetOr(configured)
  }

  /**
   * The keys these nodes write or read. `max_research_loops` is read only by
   * `evaluate_research`, which receives it as its `stateMax` argument.
   */
  class OverallState {
    var initialSearchQueryCount: Option<int>
    var researchLoopCount: Option<int>
    /** Every query searched so far, one entry per completed search. */
    var searchQuery: seq<string>

    /** The state of a fresh run: only the per-run query count may be set. */
    constructor (initialCount: Option<int>)
      ensures initialSearchQueryCount == initialCount
      ensures researchLoopCount == None && searchQuery == []
    {
      initialSearchQueryCount := initialCount;
      researchLoopCount := None;
      searchQuery := [];
    }

    /**
     * `generate_query`: fills in the configured default count only when the
     * state has none, asks the model for that many queries and returns the
     * model's list as `query_list`.
     */
    method GenerateQuery(configured: int, generated: seq<string>) returns (numberQueries: int, queryList: seq<string>)
      modifies this`initialSearchQueryCount
      ensures old(initialSearchQueryCount).Some? ==> initialSearchQueryCount == old(initialSearchQueryCount)
      ensures old(initialSearchQueryCount).None? ==> initialSearchQueryCount == Some(configured)
      ensures initialSearchQueryCount == Some(numberQueries)
      ensures numberQueries == InitialQueryCount(old(initialSearchQueryCount), configured)
      ensures queryList == generated
    {
      if initialSearchQueryCount.None? {
        initialSearchQueryCount := Some(configured);
      }
      numberQueries := initialSearchQueryCount.value;
      queryList := generated;
    }

    /**
     * `reflection`: increments `research_loop_count` in place (exactly once,
     * whatever the verdict) and reports the verdict together with the new
     * count and the number of queries run so far.
     */
    method Reflection(verdict: Verdict) returns (out: ReflectionState)
      modifies this`researchLoopCount
      ensures researchLoopCount == Some(NextLoopCount(old(researchLoopCount)))
      ensures out.researchLoopCount == researchLoopCount.value
      ensures out.numberOfRanQueries == |searchQuery|
      ensures out.isSufficient == verdict.isSufficient && out.knowledgeGap == verdict.knowledgeGap
      ensures out.followUpQueries == verdict.followUpQueries
    {
      researchLoopCount := Some(NextLoopCount(researchLoopCount));
      out := ReflectionState(verdict.isSufficient, verdict.knowledgeGap, verdict.followUpQueries,
                             researchLoopCount.value, |searchQuery|);
    }
  }
}

=== FILE: web_research.dfy ===
/**
 * The retry/fallback control of the `web_research` node. The grounded search
 * call (together with the URL resolution and citation insertion that run in
 * the same `try` block) and the fallback text generation are foreign calls:
 * the model receives their outcomes as inputs, `primary(a)` being the outcome
 * of attempt `a`. Sleeps are recorded as ghost delay values.
 */
module Search {
  import opened Wrappers

  /** One entry of `sources_gathered`. */
  datatype Source = Source(value: string, shortUrl: string, title: string)

  /** Outcome of one primary attempt: the marked-up text and its sources, or an exception. */
  datatype Attempt = Grounded(text: string, sources: seq<Source>) | Raised

  /** Outcome of the fallback text-generation call. */
  datatype Fallback = Generated(content: string) | FallbackRaised

  /** The state update `web_research` returns. */
  datatype SearchResult = SearchResult(
    sourcesGathered: seq<Source>,
    searchQuery: seq<string>,
    webResearchResult: seq<string>)

  const MaxRetries: nat := 3
  const BaseDelay: nat := 2

  /** The placeholder source reported for a fallback answer. */
  const FallbackSource := Source("Fallback response due to API connectivity issues", "#fallback", "Fallback Research")

  /** Prefix that tags a fallback answer as degraded. */
  const FallbackTag := "[备用回复] "

  /** The fixed text returned when the fallback call fails as well. */
  function Apology(query: string): string {
    "抱歉，由于网络连接问题，无法完成对 '" + query + "' 的研究。请检查网络连接或稍后重试。"
  }

  function Pow2(n: nat): nat {
    if n == 0 then 1 else 2 * Pow2(n - 1)
  }

  /** Seconds slept after failed attempt `attempt` (when a retry follows). */
  function Backoff(attempt: nat): nat {
    BaseDelay * Pow2(attempt)
  }

  /** The sleeps taken before attempt `n`: one after each of the attempts 0..n-1. */
  function Schedule(n: nat): (r: seq<nat>)
    ensures |r| == n
    ensures forall i :: 0 <= i < n ==> r[i] == Backoff(i)
  {
    if n == 0 then [] else Schedule(n - 1) + [Backoff(n - 1)]
  }

  /** The backoff schedule with three attempts is 2 seconds, then 4 seconds. */
  lemma ScheduleIsTwoThenFour()
    ensures Schedule(MaxRetries - 1) == [2, 4]
  {
  }

  /** The first attempt in `from..MaxRetries-1` that succeeds, if any. */
  function FirstGrounded(primary: nat -> Attempt, from: nat): (r: Option<nat>)
    ensures r.Some? ==> from <= r.value < MaxRetries && primary(r.value).Grounded?
    ensures r.Some? ==> forall k :: from <= k < r.value ==> primary(k).Raised?
    ensures r.None? ==> forall k :: from <= k < MaxRetries ==> primary(k).Raised?
    decreases MaxRetries - from
  {
    if from >= MaxRetries then None
    else if primary(from).Grounded? then Some(from)
    else FirstGrounded(primary, from + 1)
  }

  /**
   * What `web_research` returns for `query`: the answer of the first attempt
   * that does not raise, else
   * the tagged fallback answer, else the apology. Every path echoes the query
   * as a one-element list and yields exactly one text fragment.
   */
  function Outcome(query: string, primary: nat -> Attempt, fallback: Fallback): (r: SearchResult)
    ensures r.searchQuery == [query] && |r.webResearchResult| == 1
    ensures FirstGrounded(primary, 0).Some? ==>
      r.webResearchResult == [primary(FirstGrounded(primary, 0).value).text] &&
      r.sourcesGathered == primary(FirstGrounded(primary, 0).value).sources
    ensures (forall a :: 0 <= a < MaxRetries ==> primary(a).Raised?) && fallback.Generated? ==>
      r.sourcesGathered == [FallbackSource] && r.webResearchResult == [FallbackTag + fallback.content]
    ensures (forall a :: 0 <= a < MaxRetries ==> primary(a).Raised?) && fallback.FallbackRaised? ==>
      r.sourcesGathered == [] && r.webResearchResult == [Apology(query)]
  {
    match FirstGrounded(primary, 0)
    case Some(a) => SearchResult(primary(a).sources, [query], [primary(a).text])
    case None =>
      match fallback
      case Generated(content) => SearchResult([FallbackSource], [query], [FallbackTag + content])
      case FallbackRaised => SearchResult([], [query], [Apology(query)])
  }

  /** Number of primary calls made: up to and including the first success, else all of them. */
  function PrimaryCalls(primary: nat -> Attempt): nat {
    match FirstGrounded(primary, 0)
    case Some(a) => a + 1
    case None => MaxRetries
  }

  /**
   * `web_research`: up to `MaxRetries` primary attempts, sleeping
   * `BaseDelay * 2^attempt` seconds after each failed attempt but the last;
   * then one fallback call; then the apology. It never raises.
   */
  method WebResearch(query: string, primary: nat -> Attempt, fallback: Fallback)
    returns (r: SearchResult, ghost primaryCalls: nat, ghost fallbackCalls: nat, ghost delays: seq<nat>)
    ensures r == Outcome(query, primary, fallback)
    ensures primaryCalls == PrimaryCalls(primary) && 1 <= primaryCalls <= MaxRetries
    ensures fallbackCalls == (if FirstGrounded(primary, 0).None? then 1 else 0)
    ensures delays == Schedule(primaryCalls - 1)
  {
    primaryCalls, fallbackCalls, delays := 0, 0, [];
    for attempt := 0 to MaxRetries
      invariant attempt < MaxRetries
      invariant primaryCalls == attempt
      invariant forall k :: 0 <= k < attempt ==> primary(k).Raised?
      invariant delays == Schedule(attempt)
    {
      primaryCalls := primaryCalls + 1;
      match primary(attempt)
      case Grounded(text, sources) =>
        r := SearchResult(sources, [query], [text]);
        assert FirstGrounded(primary, attempt) == Some(attempt);
        FirstGroundedSkips(primary, attempt);
        return;
      case Raised =>
        if attempt == MaxRetries - 1 {
          assert FirstGrounded(primary, attempt + 1) == None;
          FirstGroundedSkips(primary, attempt + 1);
          fallbackCalls := 1;
          match fallback
          case Generated(content) =>
            r := SearchResult([FallbackSource], [query], [FallbackTag + content]);
            return;
          case FallbackRaised =>
            r := SearchResult([], [query], [Apology(query)]);
            return;
        } else {
          delays := delays + [Backoff(attempt)];
        }
    }
    assert false;
    r := SearchResult([], [], []);
  }

  /** Skipping attempts that all raised does not change the first success. */
  lemma FirstGroundedSkips(primary: nat -> Attempt, from: nat)
    requires from <= MaxRetries
    requires forall k :: 0 <= k < from ==> primary(k).Raised?
    ensures FirstGrounded(primary, 0) == FirstGrounded(primary, from)
  {
  }
}

=== FILE: wrappers.dfy ===
/**
 * Optional values: a key of the graph state that is absent, or (where the
 * source tests `is None`) set to None.
 */
module Wrappers {

  datatype Option<+T> = None | Some(value: T) {

    /** The value when present, `default` otherwise. */
    function GetOr(default: T): T {
      match this
      case Some(v) => v
      case None => default
    }
  }
}
